=== FILE: README.md ===
# FRC components API: authentication decisions and table semantics in Dafny

This project models two parts of the FRC components API, a catalog and inventory
service. Many teams share a public parts catalog, and each team keeps its own
inventory.

1. **Authentication and authorization decisions** (`app/auth.py`):
   - the `SECRET_KEY` startup guard;
   - the claims of an access token and its `exp` claim (section 4.1.4 of RFC 7519);
   - the login check;
   - turning a bearer token into a user (section 3 of RFC 6750), with one 401 for
     every failure;
   - the active-account check (400);
   - the exact-equality team check (403).
2. **Table semantics of the CRUD layer** (`app/crud.py`) over in-memory tables:
   - partial updates by id, where `None` fields are ignored and an all-`None`
     payload reports `false`;
   - delete by id;
   - the conjunctive catalog search, where falsy filters are skipped;
   - the per-team listing;
   - distinct categories and vendors;
   - the team inventory summary.

In the source the two parts are independent: no route calls any auth function. The
model keeps them apart.

Modules, one file each:

- `Wrappers` (`wrappers.dfy`): `Option`, `Result` and `Outcome`, for Python's `None`,
  raised exceptions and checks that raise.
- `Tables` (`tables.dfy`): `SELECT … WHERE`, `UPDATE … SET … WHERE` and
  `DELETE … WHERE` over a table held as a sequence of rows, each with the row count
  the database reports. Also `SELECT DISTINCT` over one column, and primary-key
  uniqueness.
- `Text` (`text.dfy`): the `ILIKE '%needle%'` test, an ASCII case-insensitive
  substring search. The scanning implementation is proved equal to "the lower-cased
  needle occurs at some position".
- `Auth` (`auth.dfy`): models `app/auth.py`. Parameters stand in for bcrypt `verify`
  (`Verifier`), JWT signing (`Encoder`), JWT decoding at an instant (`Decoder`) and
  the clock. The `users` table is a sequence of `User` rows holding only the fields
  `auth.py` reads.
- `PublicComponents` (`public_components.dfy`) and `TeamComponents`
  (`team_components.dfy`): the two tables of `app/models.py` as record datatypes, the
  update payloads of `app/schemas.py` as records of options, and the operations of
  `app/crud.py` on them.

Instants and durations are whole microseconds, the resolution of Python's
`timedelta`. `cost` is a `real`.

Behaviour of the code worth noting, which the model follows:

- `get_current_active_user` rejects an inactive account with status 400 "Inactive
  user", not with the 401 credentials error.
- `create_access_token` falls back to 15 minutes. It never reads the 30-minute
  constant.
- The team check is never invoked by any route.
- `app/auth.py:8` imports `users` from `app/models.py`, and that module defines no
  `users` table. As written, importing `app/auth.py` therefore raises `ImportError`
  before the `SECRET_KEY` guard at line 12 runs. Every `Auth` member assumes that
  this import resolves to a `users` table holding at least the four modelled fields:
  `username`, `hashed_password`, `is_active` and `team_id`.
- Registration and login endpoints do not exist in the code, so they are not
  modelled.

## Model

| member | source | states |
|---|---|---|
| `Auth.LoadSettings` | app/auth.py:12-16 | Assuming the import of `users` at line 8 resolves, startup succeeds exactly when `SECRET_KEY` is set and non-empty, and its value becomes the signing key. Otherwise it fails with RuntimeError "SECRET_KEY environment variable not set!". |
| `Auth.ExpiryIsRequestedOrDefault` | app/auth.py:32-35 | A token's lifetime is the caller's delta when that delta is truthy. It is 15 minutes when the delta is `None` or zero. It is never zero, and it is 30 minutes only if the caller asked for exactly 30 minutes, so the 30-minute constant is never the default. Whether the sum stays within `datetime`'s range is decided in `Auth.CreateAccessToken`. |
| `Auth.AccessTokenPayload` | app/auth.py:31-36 | The payload has the caller's claims plus `exp`, and nothing else. `exp` is the computed expiry and overrides any `exp` the caller passed. Every other claim keeps the caller's value. |
| `Auth.CreateAccessToken` | app/auth.py:29-38 | Issuing fails with `OverflowError` exactly when the expiry falls outside `datetime`'s range, years 1 to 9999. Otherwise the token is the encoding, under the configured secret and always HS256, of a payload that has the caller's claims plus `exp = expiry`. |
| `Auth.UserByUsername` | app/auth.py:40-43 | The lookup fails exactly when no stored user has that username. When it succeeds, it returns a stored user with exactly that username. |
| `Auth.AuthenticateUser` | app/auth.py:50-56 | Login yields a user exactly when the username resolves to a stored user and the password verifies against that user's hash. The user returned is the one the lookup found. Every other outcome is the single failure value. |
| `Auth.UnknownUserAndWrongPasswordLookAlike` | app/auth.py:50-56 | An unknown username and a wrong password for a known user give identical results, so the response does not reveal which usernames exist. |
| `Auth.GetCurrentUser` | app/auth.py:58-75 | Every failure is the same 401 "Could not validate credentials" with `WWW-Authenticate: Bearer`. Resolution succeeds exactly when the token decodes, carries a string `sub`, and some stored user has that username. On success it returns a stored user whose username equals `sub`. |
| `Auth.IssuedTokenResolvesUntilExpiry` | app/auth.py:29-75 | This assumes how python-jose, under the configured secret, treats a claim set without `aud`, `nbf`, `iat`, `jti` or `at_hash`, and with a string `sub` if any: it stores `exp` in whole seconds, refuses the token only once `exp` is less than the current second, and keeps `sub`. Under that assumption, issuing succeeds exactly when the expiry is within `datetime`'s range. A token issued for a stored username then resolves to that user up to and including the second of its expiry. From the next second on, or when the user is unknown, it gives the 401 exception. |
| `Auth.GetCurrentActiveUser` | app/auth.py:77-80 | An active user passes through unchanged. An inactive user gets status 400 "Inactive user". |
| `Auth.CurrentActiveUser` | app/auth.py:77-80 | The chained dependency succeeds exactly when the token resolves to an active user. It then returns that user, and otherwise fails with either the 401 or the 400 exception. |
| `Auth.DeactivatedAccountGets400` | app/auth.py:77-80 | A valid token of a deactivated account gives the 400 "Inactive user" error, not the 401. |
| `Auth.CheckTeamAccess` | app/auth.py:82-84 | The team check passes exactly when the user's team equals the given team string exactly. A user without a team never passes. Every refusal is the 403 exception with detail "Access denied: You can only access your own team's data". |
| `Auth.TeamAccessDependsOnlyOnTeam` | app/auth.py:82-84 | Users with the same team get the same decision, whatever their other fields. No role or other field is consulted. |
| `Text.Contains` | app/crud.py:47-54 | The scanning substring search answers true exactly when the needle occurs at some position of the hay. |
| `Text.MatchingIgnoresCase` | app/crud.py:47-54 | `ILIKE` ignores case on both sides: lower-casing the column text or the search text first never changes whether it matches. |
| `Text.ContainsIgnoringCase` | app/crud.py:47-54 | `ILIKE '%q%'` holds exactly when the ASCII-lower-cased needle occurs in the ASCII-lower-cased text. |
| `PublicComponents.ApplyUpdate` | app/crud.py:22-26 | Each payload field that is not `None` sets its column, and each `None` field leaves its column unchanged. The id and the columns the payload cannot name never change. |
| `PublicComponents.UpdatePublicComponent` | app/crud.py:20-28 | An all-`None` payload returns `false` and the same table. Otherwise the result is `true` exactly when a row with the id exists. Rows with that id get the payload's fields, and every other row is untouched in place. |
| `PublicComponents.EmptyUpdateChangesNothing` | app/crud.py:22-24 | Applying a payload with no non-`None` field leaves a row as it was. |
| `PublicComponents.UpdateIsIdempotent` | app/crud.py:20-28 | Repeating the same partial update changes nothing further. |
| `PublicComponents.UpdateKeepsIdsUnique` | app/crud.py:20-28 | A partial update keeps the `id` column a primary key. |
| `PublicComponents.DeletePublicComponent` | app/crud.py:30-33 | Delete returns `true` exactly when a row with the id existed. Afterwards no row has that id, and every other row is kept with its multiplicity. |
| `PublicComponents.DeleteKeepsIdsUnique` | app/crud.py:30-33 | Deleting keeps the `id` column a primary key. |
| `PublicComponents.Conditions` | app/crud.py:42-56 | The conditions list has one entry per truthy filter, at most four. It is empty exactly when every filter is falsy. |
| `PublicComponents.ConditionsMeanFilters` | app/crud.py:41-59 | A row satisfies the conjunction of the conditions list exactly when it meets every truthy filter: text in name or description, category, vendor, and `cost <= max_cost`. |
| `PublicComponents.SearchPublicComponents` | app/crud.py:35-61 | The search returns exactly the rows matching every truthy filter, with their multiplicities, and omits no matching row. With no truthy filter it returns the whole table. |
| `PublicComponents.SearchResultsSatisfyEachFilter` | app/crud.py:44-59 | Each result row is stored and satisfies each truthy filter on its own. A row without a description can match the text filter only by its name. |
| `PublicComponents.FewerFiltersFindMore` | app/crud.py:44-59 | Making any one filter falsy can only add rows to the result. |
| `PublicComponents.GetCategories` | app/crud.py:63-66 | The intended query, `SELECT DISTINCT category`, lists exactly the categories that occur in the table, each once. The code as written does something else; see Findings. |
| `PublicComponents.GetVendors` | app/crud.py:68-71 | The intended query, `SELECT DISTINCT vendor`, lists exactly the vendors that occur in the table, each once. The code as written does something else; see Findings. |
| `PublicComponents.ColumnAsWritten` | app/crud.py:63-71 | The query as written lists a row's category (or vendor) exactly when SQLite reads that text as a non-zero number. |
| `PublicComponents.ColumnAsWrittenDropsWords` | app/crud.py:63-71 | Every value the query as written lists contains a non-zero digit. A table whose values contain no such digit gives an empty list. |
| `PublicComponents.ElectronicsCatalogListsNothing` | app/crud.py:63-71 | A one-row catalog with category "Electronics" and vendor "REV" lists no category and no vendor as written, although its column holds one of each. |
| `TeamComponents.GetTeamComponents` | app/crud.py:83-85 | The listing holds exactly the rows whose `team_id` equals the team, with their multiplicities. |
| `TeamComponents.ApplyUpdate` | app/crud.py:89-95 | Each payload field that is not `None` sets its column, and each `None` field leaves its column unchanged. The id, the owning team, the catalog link and the image and CAD links never change. |
| `TeamComponents.UpdateTeamComponent` | app/crud.py:87-97 | An all-`None` payload returns `false` and the same table. Otherwise the result is `true` exactly when a row with the id exists. Rows with that id get the payload's fields, and every other row is untouched in place. |
| `TeamComponents.UpdateKeepsTeamSizes` | app/crud.py:87-97 | A partial update never moves a row between teams, so every team's listing keeps its size. |
| `TeamComponents.DeleteTeamComponent` | app/crud.py:99-102 | Delete returns `true` exactly when a row with the id existed. Afterwards no row has that id, and every other row is kept with its multiplicity. |
| `TeamComponents.DeleteShiftsTotal` | app/crud.py:99-123 | Deleting a row by its primary key lowers that row's team summary by the row's quantity and by one row. Other teams' summaries are unchanged. |
| `TeamComponents.UpdateComponentQuantity` | app/crud.py:104-108 | Rows with the id get the new quantity, and all their other fields and all other rows stay unchanged. The reported count is positive exactly when such a row exists. |
| `TeamComponents.QuantityUpdateTouchesAtMostOneRow` | app/crud.py:104-108 | With `id` a primary key, the quantity update reports at most one row. |
| `TeamComponents.QuantityUpdateShiftsTotal` | app/crud.py:104-123 | Setting one row's quantity changes its team's `total_items` by exactly new minus old. Every row count and every other team's total are unchanged. |
| `TeamComponents.GetTeamInventorySummary` | app/crud.py:112-123 | The summary echoes the team id. `total_items` is the sum of `quantity` over the team's rows and `unique_components` is their number. A team with no rows gets 0 and 0. |
| `TeamComponents.SelectionSums` | app/crud.py:112-117 | Summing the quantities of the team's listing gives the team's share of the whole table, and the listing's length is its row count. |

## Left out

- The HTTP layer in `app/main.py` is left out: routing, CORS, lifespan, the route
  ordering that shadows `/public-components/search`, and the status mapping of the
  CRUD results.
- `oauth2_scheme` is left out. It extracts the bearer token from the
  `Authorization` header and is framework plumbing.
- Cryptography is left out. bcrypt hashing (`get_password_hash`) and constant-time
  verification (`verify_password`) appear only as the `Verifier` parameter. HS256
  signing and decoding appear only as the `Encoder` and `Decoder` parameters. The
  library behaviour the round-trip lemma relies on is stated as the assumption
  `HonoursExpiry`, which is not proved. It includes the conversion of `exp` to whole
  seconds.
- `Auth.IssuedTokenResolvesUntilExpiry`: the lemma covers only claim sets without
  `aud`, `nbf`, `iat`, `jti` or `at_hash`, with a string `sub`, and with no
  `datetime` outside `exp`. python-jose validates those registered claims on
  decoding, and `app/auth.py:65` passes no audience and no access token.
- `Auth.IssuedTokenResolvesUntilExpiry`: the lemma also covers only secrets that
  python-jose uses as the same HMAC key when signing and when verifying. It does
  not cover secrets that verification parses as JSON, such as `"abc"` with the
  quotes, `[]`, `true` or `{}`. It also does not cover secrets the library refuses
  as HMAC keys, such as one containing `ssh-rsa` or a PEM header. `HonoursExpiry`
  is required for the configured secret only.
- `Auth.CreateAccessToken`: a `datetime` in a claim other than `exp`, `iat` or `nbf`
  makes the JSON encoding raise `TypeError`. The library converts a `datetime` in
  those three to a NumericDate. The `Encoder` parameter cannot fail, so this error
  is not modelled.
- `Auth.CreateAccessToken`: a secret the library refuses as an HMAC key, such as
  one containing `ssh-rsa` or a PEM header, makes `jwt.encode` raise `JWSError`.
  `Auth.LoadSettings` accepts such a secret, and this error is not modelled.
- `Auth.GetCurrentUser`: with a secret that verification parses as JSON into a
  non-string key (`true`, `null`, `{}`) or refuses as an HMAC key, decoding raises
  `JWKError`. That error is not a `JWTError`, so it escapes the handler at
  `app/auth.py:69` and the request fails with a server error. The `Decoder`
  parameter can only return `None` or a claim set, so this case is not modelled.
- `get_user_by_email` is left out, because no modelled decision calls it.
- Among the `users` table's fields, only `username`, `hashed_password`, `is_active`
  and `team_id` are modelled, because `app/models.py` defines no such table.
- `Auth.LoadSettings`: the `ImportError` that `from .models import users` raises at
  `app/auth.py:8` is not modelled. Every `Auth` member assumes the import resolves.
- The database connection is left out, because it is I/O (`app/database.py`).
- The backup script is left out, because it copies files and runs `git`
  (`backup_db.py`).
- The single-statement inserts and reads are left out. These are
  `create_public_component`, `get_public_component`, `get_all_public_components`,
  `create_team_component` and `get_team_component`. They carry no logic beyond the
  statement itself.
- The value `database.execute` returns is taken as the number of affected rows,
  which is what `result > 0` presupposes. What the database driver actually returns
  for an `UPDATE` or `DELETE` is not part of this model.
- Some SQL-level detail is left out: `%` and `_` inside a user's search text acting
  as LIKE wildcards, database collation, and non-ASCII case folding. A NULL
  `description` is modelled as never matching.
- The server-maintained `last_updated` timestamp of `team_components` is left out.
- `cost` and `max_cost` are SQL floats and are modelled as reals. NaN and rounding
  are not modelled.
- Async execution and concurrency are left out.
- `PublicComponents.SearchPublicComponents`: rows come back in table order. Without
  `ORDER BY` the database promises no order, so the contract states membership and
  multiplicity, not order.
- `PublicComponents.GetCategories`: this models the evidently intended
  `SELECT DISTINCT category`, not the code as written (see Findings). The order of
  the values is not stated.
- `PublicComponents.GetVendors`: this models the intended `SELECT DISTINCT vendor`,
  under the same reading as `GetCategories`.
- `PublicComponents.SqlTextIsTrue`: a numeric prefix whose value underflows to zero
  counts as true. The underflow can come through an exponent, as in "1e-400", or
  through a long run of zeros after the decimal point, as in "0." followed by 343
  zeros and a "1". SQLite reads both as 0.0, which is false.
- `TeamComponents.UpdateTeamComponent`, `TeamComponents.DeleteTeamComponent`,
  `TeamComponents.UpdateComponentQuantity`: the id and the quantity are unbounded
  integers. In the database they are SQLite `INTEGER` values, and Python's `sqlite3`
  driver raises `OverflowError` for any bound value outside -2^63 to 2^63-1. In
  that case the source fails with a server error, while the model updates or
  deletes as if the value fitted. An example is a quantity of 10^20, or deleting id
  2^63.
- `Auth.GetCurrentUser`: a `sub` claim that is present but not a string counts as a
  missing subject. python-jose's decoder rejects such a claim with an error in the
  same `JWTError` branch, so the observable outcome is the same 401.

## Findings

| source | as written | input that shows it | evidently intended | confidence | as-written member | corrected member |
|---|---|---|---|---|---|---|
| app/crud.py:63-71 | `public_components.select(column).distinct()`. SQLAlchemy 1.x takes the positional argument as the WHERE clause, so the statement is `SELECT DISTINCT * FROM public_components WHERE column`. SQLite reads a TEXT condition as the number at its start, so "Electronics" is 0 and false. SQLAlchemy 2.0 accepts no argument there and raises `TypeError`. | One row with category "Electronics" and vendor "REV": both lists come back empty. | `SELECT DISTINCT category` (or `vendor`): each value in the table, once. | high, not executed | `PublicComponents.ColumnAsWritten`, `PublicComponents.ElectronicsCatalogListsNothing` | `PublicComponents.GetCategories`, `PublicComponents.GetVendors` |

=== FILE: auth.dfy ===
/** Authentication and authorization decisions of the catalog service:
    the secret-key startup guard, access-token claims, the login check,
    token-to-user resolution, the active-account check and the team check.

    Cryptography and the clock are parameters: bcrypt's `verify` is a
    `Verifier`, JWT signing and decoding are an `Encoder` and a `Decoder`,
    and the current instant is passed in. Instants and durations are whole
    microseconds, the resolution of Python's `timedelta`. */
module Auth {
  import opened Wrappers

  // ---------------------------------------------------------------- data

  /** The fields of a user row that this module reads. */
  datatype User = User(username: string, hashedPassword: string, isActive: bool, teamId: Option<string>)

  /** A value of a JSON Web Token claim set. `Instant` is a Python
      `datetime`, which the encoder turns into a NumericDate. */
  datatype ClaimValue = Str(s: string) | Number(n: int) | Instant(at: int) | Null

  type Claims = map<string, ClaimValue>

  /** FastAPI's `HTTPException`: a status code, a detail message and headers. */
  datatype HttpException = HttpException(statusCode: nat, detail: string, headers: map<string, string>)

  /** bcrypt verification of a plaintext password against a stored hash. */
  type Verifier = (string, string) -> bool

  /** JWT signing: claims, key and algorithm to the compact token. The
      library writes a `datetime` in `exp` as whole seconds since the epoch. */
  type Encoder = (Claims, string, string) -> string

  /** JWT decoding at a given instant: token, key and accepted algorithms to
      the claim set, or `None` where the library raises `JWTError`. */
  type Decoder = (string, string, seq<string>, int) -> Option<Claims>

  // ----------------------------------------------------------- constants

  const SECOND: int := 1000000
  const MINUTE: int := 60 * SECOND
  const DAY: int := 24 * 60 * MINUTE

  /** The range of Python's `datetime`, 0001-01-01T00:00:00 to
      9999-12-31T23:59:59.999999 UTC, in microseconds from the Unix epoch. */
  const MIN_INSTANT: int := -719162 * DAY
  const MAX_INSTANT: int := 2932897 * DAY - 1

  predicate InDatetimeRange(instant: int)
  {
    MIN_INSTANT <= instant <= MAX_INSTANT
  }

  /** The NumericDate of an instant: whole seconds, the microseconds dropped
      (`timegm(dt.utctimetuple())`). Division by a positive constant rounds
      down, also before the epoch. */
  function Seconds(instant: int): int
  {
    instant / SECOND
  }

  const ALGORITHM: string := "HS256"
  const ALGORITHMS: seq<string> := [ALGORITHM]

  /** Declared for the login flow; `CreateAccessToken` never reads it. */
  const ACCESS_TOKEN_EXPIRE_MINUTES: int := 30

  /** The lifetime `CreateAccessToken` falls back to. */
  const DEFAULT_EXPIRE_MINUTES: int := 15

  const CredentialsException: HttpException :=
    HttpException(401, "Could not validate credentials", map["WWW-Authenticate" := "Bearer"])

  const InactiveUser: HttpException := HttpException(400, "Inactive user", map[])

  const AccessDenied: HttpException :=
    HttpException(403, "Access denied: You can only access your own team's data", map[])

  // ------------------------------------------------------ startup guard

  /** Process-wide configuration, read once when the module is imported. */
  datatype Settings = Settings(secretKey: string)

  datatype StartupError = RuntimeError(message: string)

  /** `datetime + timedelta` past the end of `datetime`'s range. */
  datatype TokenError = OverflowError(message: string)

  predicate ValidSettings(s: Settings)
  {
    s.secretKey != ""
  }

  /** Reading `SECRET_KEY` from the environment: an unset or empty variable
      aborts start-up, anything else becomes the signing key. */
  function LoadSettings(secretKeyVariable: Option<string>): (r: Result<Settings, StartupError>)
    ensures r.Success? <==> secretKeyVariable.Some? && secretKeyVariable.value != ""
    ensures r.Success? ==> ValidSettings(r.value) && r.value.secretKey == secretKeyVariable.value
    ensures r.Failure? ==> r.error == RuntimeError("SECRET_KEY environment variable not set!")
  {
    match secretKeyVariable
    case None => Failure(RuntimeError("SECRET_KEY environment variable not set!"))
    case Some(key) =>
      if key == "" then Failure(RuntimeError("SECRET_KEY environment variable not set!"))
      else Success(Settings(key))
  }

  // -------------------------------------------------------- token issue

  /** Python truthiness of an optional `timedelta`: `None` and a zero
      duration are false. */
  predicate IsTruthy(expiresDelta: Option<int>)
  {
    expiresDelta.Some? && expiresDelta.value != 0
  }

  /** The `exp` instant of a token issued at `now`. */
  function ExpiryFor(now: int, expiresDelta: Option<int>): int
  {
    if IsTruthy(expiresDelta) then now + expiresDelta.value
    else now + DEFAULT_EXPIRE_MINUTES * MINUTE
  }

  /** A token's lifetime is the caller's non-zero delta or, failing that,
      fifteen minutes; it is never zero, and it is thirty minutes only when
      the caller asked for exactly thirty. */
  lemma ExpiryIsRequestedOrDefault(now: int, expiresDelta: Option<int>)
    ensures var lifetime := ExpiryFor(now, expiresDelta) - now;
      && (expiresDelta.Some? && expiresDelta.value != 0 ==> lifetime == expiresDelta.value)
      && (expiresDelta.None? || expiresDelta.value == 0 ==> lifetime == 15 * 60 * 1000000)
      && lifetime != 0
      && (lifetime == ACCESS_TOKEN_EXPIRE_MINUTES * MINUTE ==> expiresDelta == Some(30 * 60 * 1000000))
  {
  }

  /** The claim set handed to the encoder: a copy of the caller's claims with
      `exp` set (overwriting any `exp` the caller passed). */
  function AccessTokenPayload(data: Claims, expiresDelta: Option<int>, now: int): (payload: Claims)
    ensures payload.Keys == data.Keys + {"exp"}
    ensures payload["exp"] == Instant(ExpiryFor(now, expiresDelta))
    ensures forall k :: k in data && k != "exp" ==> payload[k] == data[k]
  {
    data["exp" := Instant(ExpiryFor(now, expiresDelta))]
  }

  /** The signed token: always the configured key, always HS256. An expiry
      outside `datetime`'s range raises `OverflowError` before anything is
      signed. */
  function CreateAccessToken(s: Settings, encode: Encoder, data: Claims, expiresDelta: Option<int>, now: int): (r: Result<string, TokenError>)
    requires ValidSettings(s)
    ensures r.Failure? <==> !InDatetimeRange(ExpiryFor(now, expiresDelta))
    ensures r.Failure? ==> r.error == OverflowError("date value out of range")
    ensures r.Success? ==> exists payload: Claims ::
      && payload.Keys == data.Keys + {"exp"}
      && payload["exp"] == Instant(ExpiryFor(now, expiresDelta))
      && (forall k :: k in data && k != "exp" ==> payload[k] == data[k])
      && r.value == encode(payload, s.secretKey, ALGORITHM)
  {
    if !InDatetimeRange(ExpiryFor(now, expiresDelta)) then Failure(OverflowError("date value out of range"))
    else
      var payload := AccessTokenPayload(data, expiresDelta, now);
      Success(encode(payload, s.secretKey, ALGORITHM))
  }

  // ------------------------------------------------------ user lookups

  /** `SELECT * FROM users WHERE username = name`, first row: the first
      stored user with that username, if any. */
  function UserByUsername(users: seq<User>, name: string): (r: Option<User>)
    ensures r.None? <==> forall i :: 0 <= i < |users| ==> users[i].username != name
    ensures r.Some? ==> r.value in users && r.value.username == name
  {
    if |users| == 0 then None
    else if users[0].username == name then Some(users[0])
    else UserByUsername(users[1..], name)
  }

  // ------------------------------------------------------------- login

  /** The login check: the user record when the username exists and the
      password verifies against its hash, and one failure value (`None`,
      Python's `False`) for every other outcome. */
  function AuthenticateUser(users: seq<User>, verify: Verifier, username: string, password: string): (r: Option<User>)
    ensures r.Some? <==> exists i :: 0 <= i < |users| && users[i].username == username
                                   && UserByUsername(users, username) == Some(users[i])
                                   && verify(password, users[i].hashedPassword)
    ensures r.Some? ==> r == UserByUsername(users, username) && r.value.username == username
  {
    match UserByUsername(users, username)
    case None => None
    case Some(user) =>
      if !verify(password, user.hashedPassword) then None else Some(user)
  }

  /** An unknown username and a wrong password for a known one produce the
      same answer, so a caller cannot tell which usernames exist. */
  lemma UnknownUserAndWrongPasswordLookAlike(users: seq<User>, verify: Verifier,
                                             unknown: string, anyPassword: string,
                                             known: string, wrongPassword: string)
    requires forall i :: 0 <= i < |users| ==> users[i].username != unknown
    requires UserByUsername(users, known).Some?
    requires !verify(wrongPassword, UserByUsername(users, known).value.hashedPassword)
    ensures AuthenticateUser(users, verify, unknown, anyPassword) == AuthenticateUser(users, verify, known, wrongPassword) == None
  {
  }

  // --------------------------------------------------- token resolution

  /** The `sub` claim, when present and a string. (python-jose's decoder
      itself rejects a `sub` that is not a string, which lands in the same
      `JWTError` branch.) */
  function Subject(payload: Claims): Option<string>
  {
    if "sub" in payload && payload["sub"].Str? then Some(payload["sub"].s) else None
  }

  /** Resolve a bearer token to the user it names. A decode failure, a
      missing subject and an unknown username all raise the same 401
      exception, with a `Bearer` challenge. */
  function GetCurrentUser(s: Settings, decode: Decoder, users: seq<User>, token: string, now: int): (r: Result<User, HttpException>)
    requires ValidSettings(s)
    ensures r.Failure? ==> r.error == CredentialsException
    ensures var d := decode(token, s.secretKey, ALGORITHMS, now);
      r.Success? <==> (&& d.Some?
                       && Subject(d.value).Some?
                       && exists i :: 0 <= i < |users| && Some(users[i].username) == Subject(d.value))
    ensures var d := decode(token, s.secretKey, ALGORITHMS, now);
      r.Success? ==> (&& r.value in users
                      && d.Some?
                      && Some(r.value.username) == Subject(d.value))
  {
    match decode(token, s.secretKey, ALGORITHMS, now)
    case None => Failure(CredentialsException)
    case Some(payload) =>
      match Subject(payload)
      case None => Failure(CredentialsException)
      case Some(username) =>
        match UserByUsername(users, username)
        case None => Failure(CredentialsException)
        case Some(user) => Success(user)
  }

  /** A claim set the library signs and checks without complaint. It holds
      no registered claim that decoding validates besides `exp`: no `aud`
      (refused when no audience is configured), `nbf` (refused in the
      future), `iat` or `jti` (refused when of the wrong type), `at_hash`
      (refused when no access token is passed), and a `sub`, if any, that is
      a string. It holds no `datetime` outside `exp`: the encoder converts one
      in `iat` or `nbf`, both excluded here, and cannot serialise one in any
      other claim. */
  predicate PlainClaims(c: Claims)
  {
    && "aud" !in c && "nbf" !in c && "iat" !in c && "jti" !in c && "at_hash" !in c
    && ("sub" in c ==> c["sub"].Str?)
    && forall k :: k in c && k != "exp" ==> !c[k].Instant?
  }

  /** What python-jose does with a plain claim set it signed itself under
      `key`: `exp` is stored in whole seconds, decoding refuses the token only
      once `exp < now` in whole seconds (leeway 0), and the subject comes back
      unchanged. This holds only for keys the library uses as the same HMAC
      secret when signing and when verifying; verification first tries to
      parse the key as JSON, so a key such as `"abc"` (with the quotes) or
      `[]` does not qualify. */
  ghost predicate HonoursExpiry(encode: Encoder, decode: Decoder, key: string)
  {
    forall c: Claims, t: int ::
      "exp" in c && c["exp"].Instant? && PlainClaims(c) ==>
        var d := decode(encode(c, key, ALGORITHM), key, ALGORITHMS, t);
        (d.Some? <==> Seconds(t) <= Seconds(c["exp"].at)) && (d.Some? ==> Subject(d.value) == Subject(c))
  }

  /** A token issued for a stored user's name resolves to that user up to
      and including the second of its expiry, and to the 401 exception from
      the next second on. Issuing fails only when the expiry leaves
      `datetime`'s range. */
  lemma IssuedTokenResolvesUntilExpiry(s: Settings, encode: Encoder, decode: Decoder, users: seq<User>,
                                       data: Claims, expiresDelta: Option<int>, issuedAt: int, now: int)
    requires ValidSettings(s) && HonoursExpiry(encode, decode, s.secretKey)
    requires "sub" in data && data["sub"].Str? && PlainClaims(data)
    ensures var expiry := ExpiryFor(issuedAt, expiresDelta);
      var token := CreateAccessToken(s, encode, data, expiresDelta, issuedAt);
      var user := UserByUsername(users, data["sub"].s);
      && (token.Success? <==> InDatetimeRange(expiry))
      && (token.Success? ==>
            GetCurrentUser(s, decode, users, token.value, now)
              == if Seconds(now) <= Seconds(expiry) && user.Some? then Success(user.value)
                 else Failure(CredentialsException))
  {
    var payload := AccessTokenPayload(data, expiresDelta, issuedAt);
    assert PlainClaims(payload);
  }

  // ------------------------------------------------------- active check

  /** The active-account check: the user, unchanged, when active; a 400
      "Inactive user" exception otherwise. */
  function GetCurrentActiveUser(currentUser: User): (r: Result<User, HttpException>)
    ensures r.Success? <==> currentUser.isActive
    ensures r.Success? ==> r.value == currentUser
    ensures r.Failure? ==> r.error == InactiveUser && r.error.statusCode == 400
  {
    if !currentUser.isActive then Failure(InactiveUser) else Success(currentUser)
  }

  /** The dependency chain `get_current_active_user(get_current_user(token))`. */
  function CurrentActiveUser(s: Settings, decode: Decoder, users: seq<User>, token: string, now: int): (r: Result<User, HttpException>)
    requires ValidSettings(s)
    ensures var u := GetCurrentUser(s, decode, users, token, now);
      r.Success? <==> (u.Success? && u.value.isActive)
    ensures r.Success? ==> r == GetCurrentUser(s, decode, users, token, now)
    ensures r.Failure? ==> r.error == CredentialsException || r.error == InactiveUser
  {
    match GetCurrentUser(s, decode, users, token, now)
    case Failure(e) => Failure(e)
    case Success(user) => GetCurrentActiveUser(user)
  }

  /** A valid token of a deactivated account is refused with 400, not 401:
      the two outcomes stay distinguishable. */
  lemma DeactivatedAccountGets400(s: Settings, decode: Decoder, users: seq<User>, token: string, now: int)
    requires ValidSettings(s)
    requires GetCurrentUser(s, decode, users, token, now).Success?
    requires !GetCurrentUser(s, decode, users, token, now).value.isActive
    ensures CurrentActiveUser(s, decode, users, token, now) == Failure(InactiveUser)
    ensures CurrentActiveUser(s, decode, users, token, now).error.statusCode == 400
  {
  }

  // --------------------------------------------------------- team check

  /** The team check: passes exactly when the user's team is the given one,
      compared as exact strings; a user without a team never passes. No
      other field of the user is consulted. */
  function CheckTeamAccess(user: User, teamId: string): (r: Outcome<HttpException>)
    ensures r.Pass? <==> user.teamId.Some? && user.teamId.value == teamId
    ensures r.Fail? ==> r.error == AccessDenied && r.error.statusCode == 403
    ensures user.teamId.None? ==> r.Fail?
  {
    if user.teamId != Some(teamId) then Fail(AccessDenied) else Pass
  }

  /** Only the team field matters: two users on the same team get the same
      answer, whatever their names, hashes or active flags. */
  lemma TeamAccessDependsOnlyOnTeam(a: User, b: User, teamId: string)
    requires a.teamId == b.teamId
    ensures CheckTeamAccess(a, teamId) == CheckTeamAccess(b, teamId)
  {
  }
}

=== FILE: public_components.dfy ===
/** The shared parts catalog: the `public_components` table and the
    statements the CRUD layer issues against it (partial update, delete,
    filtered search, distinct categories and vendors). */
module PublicComponents {
  import opened Wrappers
  import Tables
  import Text

  /** A catalog row. `cost` is a SQL FLOAT, kept as a real number. */
  datatype PublicComponent = PublicComponent(
    id: string,
    name: string,
    vendor: string,
    category: string,
    cost: real,
    source: Option<string>,
    description: Option<string>,
    imageUrl: Option<string>,
    cadFileUrl: Option<string>,
    availability: Option<string>)

  /** The update payload: every field optional, `None` meaning "leave as is". */
  datatype PublicComponentUpdate = PublicComponentUpdate(
    name: Option<string>,
    vendor: Option<string>,
    category: Option<string>,
    cost: Option<real>,
    source: Option<string>,
    description: Option<string>)

  function HasId(id: string): PublicComponent -> bool
  {
    (c: PublicComponent) => c.id == id
  }

  function IdOf(c: PublicComponent): string
  {
    c.id
  }

  // ------------------------------------------------------------- update

  /** The payload carries at least one non-`None` field: the dictionary of
      non-`None` entries is non-empty. */
  predicate HasUpdateData(u: PublicComponentUpdate)
  {
    u.name.Some? || u.vendor.Some? || u.category.Some? || u.cost.Some? || u.source.Some? || u.description.Some?
  }

  /** `SET` with the non-`None` entries of the payload: each field present
      in the payload takes the payload's value, every other column keeps the
      stored one (and the key and the columns the payload cannot name never
      change). */
  function ApplyUpdate(c: PublicComponent, u: PublicComponentUpdate): (r: PublicComponent)
    ensures r.id == c.id && r.imageUrl == c.imageUrl && r.cadFileUrl == c.cadFileUrl && r.availability == c.availability
    ensures (u.name.Some? ==> r.name == u.name.value) && (u.name.None? ==> r.name == c.name)
    ensures (u.vendor.Some? ==> r.vendor == u.vendor.value) && (u.vendor.None? ==> r.vendor == c.vendor)
    ensures (u.category.Some? ==> r.category == u.category.value) && (u.category.None? ==> r.category == c.category)
    ensures (u.cost.Some? ==> r.cost == u.cost.value) && (u.cost.None? ==> r.cost == c.cost)
    ensures u.source.Some? ==> r.source == u.source
    ensures u.source.None? ==> r.source == c.source
    ensures u.description.Some? ==> r.description == u.description
    ensures u.description.None? ==> r.description == c.description
  {
    c.(name := Override(u.name, c.name),
       vendor := Override(u.vendor, c.vendor),
       category := Override(u.category, c.category),
       cost := Override(u.cost, c.cost),
       source := OrElse(u.source, c.source),
       description := OrElse(u.description, c.description))
  }

  function Updater(u: PublicComponentUpdate): PublicComponent -> PublicComponent
  {
    c => ApplyUpdate(c, u)
  }

  /** Partial update by id. An all-`None` payload reports `false` and leaves
      the table alone; otherwise the report is whether a row with the id
      exists, that row takes the payload's fields, and every other row is
      untouched. */
  function UpdatePublicComponent(t: seq<PublicComponent>, id: string, u: PublicComponentUpdate): (r: (seq<PublicComponent>, bool))
    ensures !HasUpdateData(u) ==> r == (t, false)
    ensures r.1 <==> HasUpdateData(u) && exists i :: 0 <= i < |t| && t[i].id == id
    ensures |r.0| == |t|
    ensures forall i :: 0 <= i < |t| && t[i].id != id ==> r.0[i] == t[i]
    ensures forall i :: 0 <= i < |t| && t[i].id == id ==> r.0[i] == ApplyUpdate(t[i], u)
  {
    if !HasUpdateData(u) then (t, false)
    else
      var (updated, count) := Tables.UpdateMatching(t, HasId(id), Updater(u));
      (updated, count > 0)
  }

  /** A payload with no data changes nothing even if it were applied. */
  lemma EmptyUpdateChangesNothing(c: PublicComponent, u: PublicComponentUpdate)
    requires !HasUpdateData(u)
    ensures ApplyUpdate(c, u) == c
  {
  }

  /** Applying the same payload twice is the same as applying it once. */
  lemma UpdateIsIdempotent(t: seq<PublicComponent>, id: string, u: PublicComponentUpdate)
    ensures UpdatePublicComponent(UpdatePublicComponent(t, id, u).0, id, u).0 == UpdatePublicComponent(t, id, u).0
  {
  }

  /** Updating keeps the primary key a primary key. */
  lemma UpdateKeepsIdsUnique(t: seq<PublicComponent>, id: string, u: PublicComponentUpdate)
    requires Tables.UniqueKeys(t, IdOf)
    ensures Tables.UniqueKeys(UpdatePublicComponent(t, id, u).0, IdOf)
  {
  }

  // ------------------------------------------------------------- delete

  /** Delete by id: reports whether a row with the id existed; afterwards no
      row has that id and every other row is kept, as often as it was stored. */
  function DeletePublicComponent(t: seq<PublicComponent>, id: string): (r: (seq<PublicComponent>, bool))
    ensures r.1 <==> exists i :: 0 <= i < |t| && t[i].id == id
    ensures forall c: PublicComponent :: c in r.0 ==> c.id != id
    ensures forall c: PublicComponent :: c.id != id ==> multiset(r.0)[c] == multiset(t)[c]
  {
    var (kept, count) := Tables.DeleteMatching(t, HasId(id));
    (kept, count > 0)
  }

  /** Deleting keeps the primary key a primary key. */
  lemma DeleteKeepsIdsUnique(t: seq<PublicComponent>, id: string)
    requires Tables.UniqueKeys(t, IdOf)
    ensures Tables.UniqueKeys(DeletePublicComponent(t, id).0, IdOf)
  {
    Tables.SelectKeepsKeysUnique(t, Tables.Not(HasId(id)), IdOf);
  }

  // ------------------------------------------------------------- search

  /** Python truthiness of an optional filter: `None` and `""` are false. */
  predicate IsGiven(filter: Option<string>)
  {
    filter.Some? && filter.value != ""
  }

  /** Truthiness of an optional cost bound: `None` and `0.0` are false. */
  predicate IsGivenCost(maxCost: Option<real>)
  {
    maxCost.Some? && maxCost.value != 0.0
  }

  /** The text condition: `name ILIKE %q%` or `description ILIKE %q%`. A
      missing description is NULL, which never matches. */
  predicate TextMatches(c: PublicComponent, q: string)
  {
    Text.ContainsIgnoringCase(c.name, q)
    || (c.description.Some? && Text.ContainsIgnoringCase(c.description.value, q))
  }

  /** The conditions list, one entry per truthy filter, in the order the
      filters are examined. */
  function Conditions(searchText: Option<string>, category: Option<string>, vendor: Option<string>, maxCost: Option<real>): (cs: seq<PublicComponent -> bool>)
    ensures |cs| == (if IsGiven(searchText) then 1 else 0) + (if IsGiven(category) then 1 else 0)
                   + (if IsGiven(vendor) then 1 else 0) + (if IsGivenCost(maxCost) then 1 else 0)
    ensures |cs| <= 4
    ensures |cs| == 0 <==> !IsGiven(searchText) && !IsGiven(category) && !IsGiven(vendor) && !IsGivenCost(maxCost)
  {
    TextCondition(searchText) + CategoryCondition(category) + VendorCondition(vendor) + CostCondition(maxCost)
  }

  function TextCondition(searchText: Option<string>): seq<PublicComponent -> bool>
  {
    if IsGiven(searchText) then [(c: PublicComponent) => TextMatches(c, searchText.value)] else []
  }

  function CategoryCondition(category: Option<string>): seq<PublicComponent -> bool>
  {
    if IsGiven(category) then [(c: PublicComponent) => Text.ContainsIgnoringCase(c.category, category.value)] else []
  }

  function VendorCondition(vendor: Option<string>): seq<PublicComponent -> bool>
  {
    if IsGiven(vendor) then [(c: PublicComponent) => Text.ContainsIgnoringCase(c.vendor, vendor.value)] else []
  }

  function CostCondition(maxCost: Option<real>): seq<PublicComponent -> bool>
  {
    if IsGivenCost(maxCost) then [(c: PublicComponent) => c.cost <= maxCost.value] else []
  }

  /** `and_(*conditions)` */
  predicate AllHold(cs: seq<PublicComponent -> bool>, c: PublicComponent)
  {
    forall k :: 0 <= k < |cs| ==> cs[k](c)
  }

  function AllConditions(cs: seq<PublicComponent -> bool>): PublicComponent -> bool
  {
    c => AllHold(cs, c)
  }

  /** What a row must satisfy to be found, filter by filter: each truthy
      filter constrains the row, each falsy one is ignored. */
  predicate MatchesFilters(c: PublicComponent, searchText: Option<string>, category: Option<string>, vendor: Option<string>, maxCost: Option<real>)
  {
    && (IsGiven(searchText) ==> TextMatches(c, searchText.value))
    && (IsGiven(category) ==> Text.ContainsIgnoringCase(c.category, category.value))
    && (IsGiven(vendor) ==> Text.ContainsIgnoringCase(c.vendor, vendor.value))
    && (IsGivenCost(maxCost) ==> c.cost <= maxCost.value)
  }

  /** A row satisfies the conjunction of the conditions list exactly when it
      matches every truthy filter. */
  lemma {:induction false} ConditionsMeanFilters(c: PublicComponent, searchText: Option<string>, category: Option<string>, vendor: Option<string>, maxCost: Option<real>)
    ensures AllHold(Conditions(searchText, category, vendor, maxCost), c) <==> MatchesFilters(c, searchText, category, vendor, maxCost)
  {
    var byText, byCategory := TextCondition(searchText), CategoryCondition(category);
    var byVendor, byCost := VendorCondition(vendor), CostCondition(maxCost);
    assert AllHold(byText, c) <==> (IsGiven(searchText) ==> TextMatches(c, searchText.value)) by {
      if IsGiven(searchText) { assert byText[0](c) == TextMatches(c, searchText.value); }
    }
    assert AllHold(byCategory, c) <==> (IsGiven(category) ==> Text.ContainsIgnoringCase(c.category, category.value)) by {
      if IsGiven(category) { assert byCategory[0](c) == Text.ContainsIgnoringCase(c.category, category.value); }
    }
    assert AllHold(byVendor, c) <==> (IsGiven(vendor) ==> Text.ContainsIgnoringCase(c.vendor, vendor.value)) by {
      if IsGiven(vendor) { assert byVendor[0](c) == Text.ContainsIgnoringCase(c.vendor, vendor.value); }
    }
    assert AllHold(byCost, c) <==> (IsGivenCost(maxCost) ==> c.cost <= maxCost.value) by {
      if IsGivenCost(maxCost) { assert byCost[0](c) == (c.cost <= maxCost.value); }
    }
    AllHoldConcat(byText, byCategory, c);
    AllHoldConcat(byText + byCategory, byVendor, c);
    AllHoldConcat(byText + byCategory + byVendor, byCost, c);
  }

  lemma AllHoldConcat(a: seq<PublicComponent -> bool>, b: seq<PublicComponent -> bool>, c: PublicComponent)
    ensures AllHold(a + b, c) <==> AllHold(a, c) && AllHold(b, c)
  {
    if AllHold(a, c) && AllHold(b, c) {
      forall k | 0 <= k < |a + b|
        ensures (a + b)[k](c)
      {
        if k >= |a| {
          assert (a + b)[k] == b[k - |a|];
        }
      }
    }
    if AllHold(a + b, c) {
      forall k | 0 <= k < |a|
        ensures a[k](c)
      {
        assert (a + b)[k] == a[k];
      }
      forall k | 0 <= k < |b|
        ensures b[k](c)
      {
        assert (a + b)[|a| + k] == b[k];
      }
    }
  }

  /** The search: every row satisfying every truthy filter, and no other.
      With no truthy filter at all it is the whole table. */
  function SearchPublicComponents(t: seq<PublicComponent>, searchText: Option<string>, category: Option<string>, vendor: Option<string>, maxCost: Option<real>): (r: seq<PublicComponent>)
    ensures forall c :: c in r <==> c in t && MatchesFilters(c, searchText, category, vendor, maxCost)
    ensures forall c :: multiset(r)[c] == if MatchesFilters(c, searchText, category, vendor, maxCost) then multiset(t)[c] else 0
    ensures !IsGiven(searchText) && !IsGiven(category) && !IsGiven(vendor) && !IsGivenCost(maxCost) ==> r == t
  {
    var cs := Conditions(searchText, category, vendor, maxCost);
    if |cs| == 0 then
      assert forall c :: MatchesFilters(c, searchText, category, vendor, maxCost);
      t
    else
      assert forall c :: AllConditions(cs)(c) <==> MatchesFilters(c, searchText, category, vendor, maxCost) by {
        forall c {
          ConditionsMeanFilters(c, searchText, category, vendor, maxCost);
        }
      }
      Tables.Select(t, AllConditions(cs))
  }

  /** Each result row satisfies each truthy filter on its own. */
  lemma SearchResultsSatisfyEachFilter(t: seq<PublicComponent>, searchText: Option<string>, category: Option<string>, vendor: Option<string>, maxCost: Option<real>)
    ensures forall c :: c in SearchPublicComponents(t, searchText, category, vendor, maxCost) ==>
      && c in t
      && (IsGiven(searchText) ==>
            (|| Text.ContainsIgnoringCase(c.name, searchText.value)
             || (c.description.Some? && Text.ContainsIgnoringCase(c.description.value, searchText.value))))
      && (IsGiven(category) ==> Text.ContainsIgnoringCase(c.category, category.value))
      && (IsGiven(vendor) ==> Text.ContainsIgnoringCase(c.vendor, vendor.value))
      && (IsGivenCost(maxCost) ==> c.cost <= maxCost.value)
  {
  }

  /** Dropping a filter (making it falsy) can only widen the result. */
  lemma FewerFiltersFindMore(t: seq<PublicComponent>, searchText: Option<string>, category: Option<string>, vendor: Option<string>, maxCost: Option<real>)
    ensures forall c :: c in SearchPublicComponents(t, searchText, category, vendor, maxCost)
              ==> c in SearchPublicComponents(t, None, category, vendor, maxCost)
                  && c in SearchPublicComponents(t, searchText, None, vendor, maxCost)
                  && c in SearchPublicComponents(t, searchText, category, None, maxCost)
                  && c in SearchPublicComponents(t, searchText, category, vendor, None)
  {
  }

  // ------------------------------------------- distinct categories/vendors

  function CategoryOf(c: PublicComponent): string
  {
    c.category
  }

  function VendorOf(c: PublicComponent): string
  {
    c.vendor
  }

  /** `SELECT DISTINCT category`: every category in the table, once each. */
  method GetCategories(t: seq<PublicComponent>) returns (r: seq<string>)
    ensures forall v :: v in r <==> exists i :: 0 <= i < |t| && t[i].category == v
    ensures forall i, j :: 0 <= i < j < |r| ==> r[i] != r[j]
  {
    var column := Tables.Column(t, CategoryOf);
    r := Tables.Distinct(column);
    assert forall v :: v in column <==> exists i :: 0 <= i < |t| && t[i].category == v by {
      forall v | v in column
        ensures exists i :: 0 <= i < |t| && t[i].category == v
      {
        var i :| 0 <= i < |column| && column[i] == v;
      }
    }
  }

  /** `SELECT DISTINCT vendor`: every vendor in the table, once each. */
  method GetVendors(t: seq<PublicComponent>) returns (r: seq<string>)
    ensures forall v :: v in r <==> exists i :: 0 <= i < |t| && t[i].vendor == v
    ensures forall i, j :: 0 <= i < j < |r| ==> r[i] != r[j]
  {
    var column := Tables.Column(t, VendorOf);
    r := Tables.Distinct(column);
    assert forall v :: v in column <==> exists i :: 0 <= i < |t| && t[i].vendor == v by {
      forall v | v in column
        ensures exists i :: 0 <= i < |t| && t[i].vendor == v
      {
        var i :| 0 <= i < |column| && column[i] == v;
      }
    }
  }

  // ------------------------------------- the column queries as written

  /** SQLite's whitespace for numeric conversion: space, tab, line feed,
      vertical tab, form feed and carriage return. */
  predicate IsSqlSpace(ch: char)
  {
    ch == ' ' || (9 <= ch as int <= 13)
  }

  predicate IsNonZeroDigit(ch: char)
  {
    '1' <= ch <= '9'
  }

  /** The first position at or after `i` that is not whitespace. */
  function SkipSpaces(s: string, i: nat): (j: nat)
    requires i <= |s|
    ensures i <= j <= |s|
    ensures forall k :: i <= k < j ==> IsSqlSpace(s[k])
    ensures j < |s| ==> !IsSqlSpace(s[j])
    decreases |s| - i
  {
    if i < |s| && IsSqlSpace(s[i]) then SkipSpaces(s, i + 1) else i
  }

  /** The mantissa from position `i` on (digits with at most one decimal
      point) has a non-zero digit before it ends. */
  function MantissaIsNonZero(s: string, i: nat, seenPoint: bool): (r: bool)
    requires i <= |s|
    ensures r ==> exists k :: i <= k < |s| && IsNonZeroDigit(s[k])
    ensures (i < |s| && IsNonZeroDigit(s[i])) ==> r
    decreases |s| - i
  {
    if i == |s| then false
    else if IsNonZeroDigit(s[i]) then true
    else if s[i] == '0' then MantissaIsNonZero(s, i + 1, seenPoint)
    else if s[i] == '.' && !seenPoint then MantissaIsNonZero(s, i + 1, true)
    else false
  }

  /** The truth value SQLite gives a TEXT value used as a condition: the
      number read from its longest numeric prefix (whitespace, an optional
      sign, then digits with an optional decimal point) is not zero. A text
      that does not start with a number reads as 0, so it is false. */
  function SqlTextIsTrue(s: string): (r: bool)
    ensures r ==> exists k :: 0 <= k < |s| && IsNonZeroDigit(s[k])
    ensures |s| > 0 && IsNonZeroDigit(s[0]) ==> r
  {
    var i := SkipSpaces(s, 0);
    var j := if i < |s| && (s[i] == '+' || s[i] == '-') then i + 1 else i;
    MantissaIsNonZero(s, j, false)
  }

  /** `public_components.select(column).distinct()` as SQLAlchemy 1.x builds
      it: the positional argument is the WHERE clause, so the statement is
      `SELECT DISTINCT * FROM public_components WHERE column`, and the column
      is then read from each returned row, in table order. Whole rows are
      distinct by their primary key, so DISTINCT removes nothing. */
  function ColumnAsWritten(t: seq<PublicComponent>, col: PublicComponent -> string): (r: seq<string>)
    ensures forall v :: v in r <==> exists i :: 0 <= i < |t| && col(t[i]) == v && SqlTextIsTrue(v)
  {
    if |t| == 0 then []
    else
      var rest := ColumnAsWritten(t[1..], col);
      assert forall v :: (exists i :: 0 <= i < |t| - 1 && col(t[1..][i]) == v && SqlTextIsTrue(v))
                         ==> (exists i :: 0 <= i < |t| && col(t[i]) == v && SqlTextIsTrue(v)) by {
        forall v | exists i :: 0 <= i < |t| - 1 && col(t[1..][i]) == v && SqlTextIsTrue(v)
          ensures exists i :: 0 <= i < |t| && col(t[i]) == v && SqlTextIsTrue(v)
        {
          var i :| 0 <= i < |t| - 1 && col(t[1..][i]) == v && SqlTextIsTrue(v);
          assert col(t[i + 1]) == v;
        }
      }
      assert forall i :: 1 <= i < |t| ==> t[i] == t[1..][i - 1];
      if SqlTextIsTrue(col(t[0])) then [col(t[0])] + rest else rest
  }

  /** The query as written lists a category or vendor only when its text
      holds a non-zero digit; a catalog of ordinary names lists nothing,
      while the intended `SELECT DISTINCT` lists every one of them. */
  lemma {:induction false} ColumnAsWrittenDropsWords(t: seq<PublicComponent>, col: PublicComponent -> string)
    ensures forall v :: v in ColumnAsWritten(t, col) ==> exists k :: 0 <= k < |v| && IsNonZeroDigit(v[k])
    ensures (forall i, k :: 0 <= i < |t| && 0 <= k < |col(t[i])| ==> !IsNonZeroDigit(col(t[i])[k]))
              ==> ColumnAsWritten(t, col) == []
  {
    var r := ColumnAsWritten(t, col);
    if r != [] {
      assert r[0] in r;
      var i :| 0 <= i < |t| && col(t[i]) == r[0] && SqlTextIsTrue(r[0]);
      var k :| 0 <= k < |r[0]| && IsNonZeroDigit(r[0][k]);
      assert IsNonZeroDigit(col(t[i])[k]);
    }
  }

  /** A one-row catalog in category "Electronics" from vendor "REV": the
      categories and vendors as written are empty, although the table has
      one of each. */
  lemma {:induction false} ElectronicsCatalogListsNothing()
    ensures var t := [PublicComponent("am-0001", "Motor", "REV", "Electronics", 10.0, None, None, None, None, None)];
      && ColumnAsWritten(t, CategoryOf) == [] && ColumnAsWritten(t, VendorOf) == []
      && Tables.Column(t, CategoryOf) == ["Electronics"] && Tables.Column(t, VendorOf) == ["REV"]
  {
    var t := [PublicComponent("am-0001", "Motor", "REV", "Electronics", 10.0, None, None, None, None, None)];
    assert !SqlTextIsTrue("Electronics") && !SqlTextIsTrue("REV");
    assert CategoryOf(t[0]) == "Electronics" && VendorOf(t[0]) == "REV";
  }
}

=== FILE: tables.dfy ===
/** Single-table SQL statements over an in-memory table.

    A table is a sequence of rows in storage order. `SELECT ... WHERE p`,
    `UPDATE ... SET f WHERE p` and `DELETE ... WHERE p` are given here once,
    generically, together with the number of rows each statement touches
    (the row count the database reports back). */
module Tables {

  /** `SELECT * WHERE p`: exactly the rows satisfying `p`, each as often as
      it is stored, in table order. */
  function Select<R(!new)>(t: seq<R>, p: R -> bool): (r: seq<R>)
    ensures |r| <= |t|
    ensures forall x :: multiset(r)[x] == if p(x) then multiset(t)[x] else 0
    ensures forall x :: x in r <==> x in t && p(x)
    ensures |r| == 0 <==> forall i :: 0 <= i < |t| ==> !p(t[i])
    ensures (forall i :: 0 <= i < |t| ==> p(t[i])) ==> r == t
  {
    if |t| == 0 then []
    else
      var rest := Select(t[1..], p);
      var r := if p(t[0]) then [t[0]] + rest else rest;
      SelectStepCounts(t, p, rest, r);
      SelectStepRows(t, p, rest, r);
      r
  }

  /** The multiplicity half of `Select`'s inductive step. */
  lemma SelectStepCounts<R(!new)>(t: seq<R>, p: R -> bool, rest: seq<R>, r: seq<R>)
    requires |t| > 0
    requires r == if p(t[0]) then [t[0]] + rest else rest
    requires forall x :: multiset(rest)[x] == if p(x) then multiset(t[1..])[x] else 0
    ensures forall x :: multiset(r)[x] == if p(x) then multiset(t)[x] else 0
    ensures forall x :: x in r <==> x in t && p(x)
  {
    assert t == [t[0]] + t[1..];
    assert multiset(t) == multiset{t[0]} + multiset(t[1..]);
    forall x
      ensures x in r <==> x in t && p(x)
    {
      assert x in r <==> multiset(r)[x] > 0;
      assert x in t <==> multiset(t)[x] > 0;
    }
  }

  /** The length and whole-table half of `Select`'s inductive step. */
  lemma SelectStepRows<R(!new)>(t: seq<R>, p: R -> bool, rest: seq<R>, r: seq<R>)
    requires |t| > 0
    requires r == if p(t[0]) then [t[0]] + rest else rest
    requires |rest| <= |t[1..]|
    requires |rest| == 0 <==> forall i :: 0 <= i < |t[1..]| ==> !p(t[1..][i])
    requires (forall i :: 0 <= i < |t[1..]| ==> p(t[1..][i])) ==> rest == t[1..]
    ensures |r| <= |t|
    ensures |r| == 0 <==> forall i :: 0 <= i < |t| ==> !p(t[i])
    ensures (forall i :: 0 <= i < |t| ==> p(t[i])) ==> r == t
  {
    assert forall i :: 0 < i < |t| ==> t[i] == t[1..][i - 1];
    if forall i :: 0 <= i < |t| ==> p(t[i]) {
      assert t == [t[0]] + t[1..];
    }
  }

  /** `UPDATE SET f WHERE p`: every row satisfying `p` is replaced by `f` of
      it in place; every other row stays where and as it was. */
  function UpdateWhere<R>(t: seq<R>, p: R -> bool, f: R -> R): (r: seq<R>)
    ensures |r| == |t|
    ensures forall i :: 0 <= i < |t| && p(t[i]) ==> r[i] == f(t[i])
    ensures forall i :: 0 <= i < |t| && !p(t[i]) ==> r[i] == t[i]
  {
    if |t| == 0 then []
    else [if p(t[0]) then f(t[0]) else t[0]] + UpdateWhere(t[1..], p, f)
  }

  /** The statement `UPDATE SET f WHERE p` together with its row count. */
  function UpdateMatching<R(!new)>(t: seq<R>, p: R -> bool, f: R -> R): (r: (seq<R>, nat))
    ensures r.0 == UpdateWhere(t, p, f)
    ensures r.1 > 0 <==> exists i :: 0 <= i < |t| && p(t[i])
  {
    (UpdateWhere(t, p, f), |Select(t, p)|)
  }

  /** The statement `DELETE WHERE p` together with its row count: what is
      left is exactly the rows not satisfying `p`, with their multiplicities
      and order. */
  function DeleteMatching<R(!new)>(t: seq<R>, p: R -> bool): (r: (seq<R>, nat))
    ensures forall x :: x in r.0 <==> x in t && !p(x)
    ensures forall x :: !p(x) ==> multiset(r.0)[x] == multiset(t)[x]
    ensures r.1 > 0 <==> exists i :: 0 <= i < |t| && p(t[i])
    ensures |r.0| + r.1 == |t|
    ensures r.0 == Select(t, Not(p))
  {
    var kept := Select(t, Not(p));
    var gone := Select(t, p);
    SelectPartitions(t, p);
    (kept, |gone|)
  }

  function Not<R>(p: R -> bool): R -> bool
  {
    x => !p(x)
  }

  /** The rows satisfying `p` and the rows not satisfying it add up to the
      whole table. */
  lemma {:induction false} SelectPartitions<R(!new)>(t: seq<R>, p: R -> bool)
    ensures |Select(t, p)| + |Select(t, Not(p))| == |t|
  {
    if |t| > 0 {
      SelectPartitions(t[1..], p);
    }
  }

  /** Column `key` takes a different value on every row: a primary key. */
  ghost predicate UniqueKeys<R, K>(t: seq<R>, key: R -> K)
  {
    forall i, j :: 0 <= i < |t| && 0 <= j < |t| && key(t[i]) == key(t[j]) ==> i == j
  }

  /** Removing rows cannot make a primary key collide. */
  lemma {:induction false} SelectKeepsKeysUnique<R(!new), K>(t: seq<R>, p: R -> bool, key: R -> K)
    requires UniqueKeys(t, key)
    ensures UniqueKeys(Select(t, p), key)
  {
    if |t| > 0 {
      UniqueKeysTail(t, key);
      SelectKeepsKeysUnique(t[1..], p, key);
      if p(t[0]) {
        var s := Select(t[1..], p);
        forall y | y in s
          ensures key(y) != key(t[0])
        {
          KeyOfLaterRowDiffers(t, key, y);
        }
        UniqueKeysCons(t[0], s, key);
      }
    }
  }

  lemma UniqueKeysTail<R, K>(t: seq<R>, key: R -> K)
    requires |t| > 0 && UniqueKeys(t, key)
    ensures UniqueKeys(t[1..], key)
  {
    var rest := t[1..];
    forall i, j | 0 <= i < |rest| && 0 <= j < |rest| && key(rest[i]) == key(rest[j])
      ensures i == j
    {
      assert rest[i] == t[i + 1] && rest[j] == t[j + 1];
    }
  }

  /** A row whose key no other row has can be put in front of a keyed table. */
  lemma UniqueKeysCons<R, K>(x: R, s: seq<R>, key: R -> K)
    requires UniqueKeys(s, key)
    requires forall y :: y in s ==> key(y) != key(x)
    ensures UniqueKeys([x] + s, key)
  {
    var r := [x] + s;
    forall i, j | 0 <= i < |r| && 0 <= j < |r| && key(r[i]) == key(r[j])
      ensures i == j
    {
      if i > 0 {
        assert r[i] == s[i - 1];
        assert r[i] in s;
      }
      if j > 0 {
        assert r[j] == s[j - 1];
        assert r[j] in s;
      }
    }
  }

  /** In a table with a primary key, no row after the first shares its key. */
  lemma KeyOfLaterRowDiffers<R, K>(t: seq<R>, key: R -> K, x: R)
    requires |t| > 0 && UniqueKeys(t, key)
    requires x in t[1..]
    ensures key(x) != key(t[0])
  {
  }

  /** With a primary key, a statement `WHERE key == k` touches at most one row. */
  lemma {:induction false} UniqueKeyMatchesAtMostOne<R(!new), K>(t: seq<R>, key: R -> K, p: R -> bool, k: K)
    requires UniqueKeys(t, key)
    requires forall x :: p(x) <==> key(x) == k
    ensures |Select(t, p)| <= 1
  {
    if |t| > 0 {
      var rest := t[1..];
      UniqueKeysTail(t, key);
      if p(t[0]) {
        forall i | 0 <= i < |rest|
          ensures !p(rest[i])
        {
          assert rest[i] == t[i + 1];
        }
      } else {
        UniqueKeyMatchesAtMostOne(rest, key, p, k);
      }
    }
  }

  /** The values of one column, row by row. */
  function Column<R, V>(t: seq<R>, col: R -> V): (r: seq<V>)
    ensures |r| == |t|
    ensures forall i :: 0 <= i < |t| ==> r[i] == col(t[i])
  {
    seq(|t|, i requires 0 <= i < |t| => col(t[i]))
  }

  /** `SELECT DISTINCT` over one column: every value that occurs, exactly once.
      (Values appear in order of first occurrence.) */
  method Distinct<V(==)>(xs: seq<V>) returns (r: seq<V>)
    ensures forall v :: v in r <==> v in xs
    ensures forall i, j :: 0 <= i < j < |r| ==> r[i] != r[j]
  {
    r := [];
    var k := 0;
    while k < |xs|
      invariant 0 <= k <= |xs|
      invariant forall v :: v in r <==> v in xs[..k]
      invariant forall i, j :: 0 <= i < j < |r| ==> r[i] != r[j]
    {
      assert xs[..k + 1] == xs[..k] + [xs[k]];
      if xs[k] !in r {
        r := r + [xs[k]];
      }
      k := k + 1;
    }
    assert xs[..k] == xs;
  }
}

=== FILE: team_components.dfy ===
/** Team inventories: the `team_components` table and the statements the
    CRUD layer issues against it (per-team listing, partial update, delete,
    quantity update, inventory summary). */
module TeamComponents {
  import opened Wrappers
  import Tables

  /** An inventory row. The server-maintained `last_updated` timestamp is
      not part of the model. */
  datatype TeamComponent = TeamComponent(
    id: int,
    teamId: string,
    publicComponentId: Option<string>,
    name: string,
    vendor: string,
    quantity: int,
    location: Option<string>,
    notes: Option<string>,
    addedBy: Option<string>,
    imageUrl: Option<string>,
    cadFileUrl: Option<string>)

  /** The update payload: every field optional, `None` meaning "leave as is". */
  datatype TeamComponentUpdate = TeamComponentUpdate(
    name: Option<string>,
    vendor: Option<string>,
    quantity: Option<int>,
    location: Option<string>,
    notes: Option<string>,
    addedBy: Option<string>)

  /** The per-team figures the summary reports. */
  datatype InventorySummary = InventorySummary(teamId: string, totalItems: int, uniqueComponents: nat)

  function HasId(id: int): TeamComponent -> bool
  {
    (c: TeamComponent) => c.id == id
  }

  function IdOf(c: TeamComponent): int
  {
    c.id
  }

  function OnTeam(teamId: string): TeamComponent -> bool
  {
    (c: TeamComponent) => c.teamId == teamId
  }

  // ------------------------------------------------------------- listing

  /** The team's inventory: exactly the rows whose team is `teamId`, each as
      often as it is stored. */
  function GetTeamComponents(t: seq<TeamComponent>, teamId: string): (r: seq<TeamComponent>)
    ensures forall c: TeamComponent :: c in r <==> c in t && c.teamId == teamId
    ensures forall c: TeamComponent :: c.teamId == teamId ==> multiset(r)[c] == multiset(t)[c]
  {
    Tables.Select(t, OnTeam(teamId))
  }

  // ------------------------------------------------------------- update

  /** The payload carries at least one non-`None` field. */
  predicate HasUpdateData(u: TeamComponentUpdate)
  {
    u.name.Some? || u.vendor.Some? || u.quantity.Some? || u.location.Some? || u.notes.Some? || u.addedBy.Some?
  }

  /** `SET` with the non-`None` entries of the payload: each field present
      takes the payload's value; every other column, including the id and the
      owning team, keeps the stored one. */
  function ApplyUpdate(c: TeamComponent, u: TeamComponentUpdate): (r: TeamComponent)
    ensures r.id == c.id && r.teamId == c.teamId && r.publicComponentId == c.publicComponentId
    ensures r.imageUrl == c.imageUrl && r.cadFileUrl == c.cadFileUrl
    ensures (u.name.Some? ==> r.name == u.name.value) && (u.name.None? ==> r.name == c.name)
    ensures (u.vendor.Some? ==> r.vendor == u.vendor.value) && (u.vendor.None? ==> r.vendor == c.vendor)
    ensures (u.quantity.Some? ==> r.quantity == u.quantity.value) && (u.quantity.None? ==> r.quantity == c.quantity)
    ensures (u.location.Some? ==> r.location == u.location) && (u.location.None? ==> r.location == c.location)
    ensures (u.notes.Some? ==> r.notes == u.notes) && (u.notes.None? ==> r.notes == c.notes)
    ensures (u.addedBy.Some? ==> r.addedBy == u.addedBy) && (u.addedBy.None? ==> r.addedBy == c.addedBy)
  {
    c.(name := Override(u.name, c.name),
       vendor := Override(u.vendor, c.vendor),
       quantity := Override(u.quantity, c.quantity),
       location := OrElse(u.location, c.location),
       notes := OrElse(u.notes, c.notes),
       addedBy := OrElse(u.addedBy, c.addedBy))
  }

  function Updater(u: TeamComponentUpdate): TeamComponent -> TeamComponent
  {
    c => ApplyUpdate(c, u)
  }

  /** Partial update by id. An all-`None` payload reports `false` and leaves
      the table alone; otherwise the report is whether a row with the id
      exists, that row takes the payload's fields, and every other row is
      untouched. */
  function UpdateTeamComponent(t: seq<TeamComponent>, id: int, u: TeamComponentUpdate): (r: (seq<TeamComponent>, bool))
    ensures !HasUpdateData(u) ==> r == (t, false)
    ensures r.1 <==> HasUpdateData(u) && exists i :: 0 <= i < |t| && t[i].id == id
    ensures |r.0| == |t|
    ensures forall i :: 0 <= i < |t| && t[i].id != id ==> r.0[i] == t[i]
    ensures forall i :: 0 <= i < |t| && t[i].id == id ==> r.0[i] == ApplyUpdate(t[i], u)
  {
    if !HasUpdateData(u) then (t, false)
    else
      var (updated, count) := Tables.UpdateMatching(t, HasId(id), Updater(u));
      (updated, count > 0)
  }

  /** An update never moves a row to another team, so every team's listing
      keeps its size. */
  lemma UpdateKeepsTeamSizes(t: seq<TeamComponent>, id: int, u: TeamComponentUpdate, teamId: string)
    ensures |GetTeamComponents(UpdateTeamComponent(t, id, u).0, teamId)| == |GetTeamComponents(t, teamId)|
  {
    var r := UpdateTeamComponent(t, id, u).0;
    assert forall i :: 0 <= i < |t| ==> r[i].teamId == t[i].teamId;
    SameTeamsSameCount(t, r, teamId);
  }

  /** Two tables that agree row by row on the team column list the same
      number of rows for every team. */
  lemma {:induction false} SameTeamsSameCount(a: seq<TeamComponent>, b: seq<TeamComponent>, teamId: string)
    requires |a| == |b|
    requires forall i :: 0 <= i < |a| ==> a[i].teamId == b[i].teamId
    ensures |Tables.Select(a, OnTeam(teamId))| == |Tables.Select(b, OnTeam(teamId))|
  {
    if |a| > 0 {
      SameTeamsSameCount(a[1..], b[1..], teamId);
    }
  }

  // ------------------------------------------------------------- delete

  /** Delete by id: reports whether a row with the id existed; afterwards no
      row has that id and every other row is kept, as often as it was stored. */
  function DeleteTeamComponent(t: seq<TeamComponent>, id: int): (r: (seq<TeamComponent>, bool))
    ensures r.1 <==> exists i :: 0 <= i < |t| && t[i].id == id
    ensures forall c: TeamComponent :: c in r.0 ==> c.id != id
    ensures forall c: TeamComponent :: c.id != id ==> multiset(r.0)[c] == multiset(t)[c]
  {
    var (kept, count) := Tables.DeleteMatching(t, HasId(id));
    (kept, count > 0)
  }

  /** Deleting one row by its id takes exactly that row's quantity off its
      team's total and one off its row count; other teams are unaffected. */
  lemma DeleteShiftsTotal(t: seq<TeamComponent>, k: int, teamId: string)
    requires Tables.UniqueKeys(t, IdOf)
    requires 0 <= k < |t|
    ensures var after := DeleteTeamComponent(t, t[k].id).0;
      && TeamQuantity(after, teamId) == TeamQuantity(t, teamId) - (if t[k].teamId == teamId then t[k].quantity else 0)
      && TeamRowCount(after, teamId) == TeamRowCount(t, teamId) - (if t[k].teamId == teamId then 1 else 0)
  {
    var id := t[k].id;
    assert DeleteTeamComponent(t, id).0 == Tables.Select(t, Tables.Not(HasId(id)));
    RemoveAt(t, id, k, teamId);
  }

  /** Induction for `DeleteShiftsTotal`: row `k` is the only row with `id`. */
  lemma {:induction false} RemoveAt(t: seq<TeamComponent>, id: int, k: int, teamId: string)
    requires 0 <= k < |t| && t[k].id == id
    requires forall i :: 0 <= i < |t| && i != k ==> t[i].id != id
    ensures var after := Tables.Select(t, Tables.Not(HasId(id)));
      && TeamQuantity(after, teamId) == TeamQuantity(t, teamId) - (if t[k].teamId == teamId then t[k].quantity else 0)
      && TeamRowCount(after, teamId) == TeamRowCount(t, teamId) - (if t[k].teamId == teamId then 1 else 0)
  {
    var keep := Tables.Not(HasId(id));
    var rest := t[1..];
    assert t == [t[0]] + rest;
    if k == 0 {
      forall i | 0 <= i < |rest|
        ensures keep(rest[i])
      {
        assert rest[i] == t[i + 1];
      }
      assert !keep(t[0]);
      assert Tables.Select(t, keep) == Tables.Select(rest, keep) == rest;
    } else {
      forall i | 0 <= i < |rest| && i != k - 1
        ensures rest[i].id != id
      {
        assert rest[i] == t[i + 1];
      }
      RemoveAt(rest, id, k - 1, teamId);
      assert keep(t[0]);
      var after := Tables.Select(rest, keep);
      assert Tables.Select(t, keep) == [t[0]] + after;
      PrependSums(t[0], after, teamId);
    }
  }

  /** The reference sums of a table with one more row in front. */
  lemma PrependSums(x: TeamComponent, t: seq<TeamComponent>, teamId: string)
    ensures TeamQuantity([x] + t, teamId) == (if x.teamId == teamId then x.quantity else 0) + TeamQuantity(t, teamId)
    ensures TeamRowCount([x] + t, teamId) == (if x.teamId == teamId then 1 else 0) + TeamRowCount(t, teamId)
  {
  }

  // ---------------------------------------------------- quantity update

  /** `UPDATE SET quantity = n WHERE id = id`, returning the row count: the
      rows with that id get the new quantity and nothing else, and the count
      is positive exactly when such a row exists. */
  function UpdateComponentQuantity(t: seq<TeamComponent>, id: int, newQuantity: int): (r: (seq<TeamComponent>, nat))
    ensures |r.0| == |t|
    ensures forall i :: 0 <= i < |t| && t[i].id != id ==> r.0[i] == t[i]
    ensures forall i :: 0 <= i < |t| && t[i].id == id ==> r.0[i] == t[i].(quantity := newQuantity)
    ensures r.1 > 0 <==> exists i :: 0 <= i < |t| && t[i].id == id
  {
    Tables.UpdateMatching(t, HasId(id), SetQuantity(newQuantity))
  }

  /** With `id` a primary key, the quantity update reports 0 or 1 rows. */
  lemma QuantityUpdateTouchesAtMostOneRow(t: seq<TeamComponent>, id: int, newQuantity: int)
    requires Tables.UniqueKeys(t, IdOf)
    ensures UpdateComponentQuantity(t, id, newQuantity).1 <= 1
  {
    Tables.UniqueKeyMatchesAtMostOne(t, IdOf, HasId(id), id);
  }

  function SetQuantity(n: int): TeamComponent -> TeamComponent
  {
    (c: TeamComponent) => c.(quantity := n)
  }

  // ---------------------------------------------------- inventory summary

  /** Sum of the quantities of a list of rows. */
  function TotalQuantity(rows: seq<TeamComponent>): int
  {
    if |rows| == 0 then 0 else rows[0].quantity + TotalQuantity(rows[1..])
  }

  /** Reference definition: the team's holdings, summed over the whole table
      with the other teams' rows counting zero. */
  function TeamQuantity(t: seq<TeamComponent>, teamId: string): int
  {
    if |t| == 0 then 0
    else (if t[0].teamId == teamId then t[0].quantity else 0) + TeamQuantity(t[1..], teamId)
  }

  /** Reference definition: how many rows of the table belong to the team. */
  function TeamRowCount(t: seq<TeamComponent>, teamId: string): nat
  {
    if |t| == 0 then 0
    else (if t[0].teamId == teamId then 1 else 0) + TeamRowCount(t[1..], teamId)
  }

  /** The inventory summary: echoes the team, totals the quantities of the
      team's rows and counts them; a team without rows gets 0 and 0. */
  function GetTeamInventorySummary(t: seq<TeamComponent>, teamId: string): (r: InventorySummary)
    ensures r.teamId == teamId
    ensures r.totalItems == TeamQuantity(t, teamId)
    ensures r.uniqueComponents == TeamRowCount(t, teamId)
    ensures (forall i :: 0 <= i < |t| ==> t[i].teamId != teamId) ==> r.totalItems == 0 && r.uniqueComponents == 0
  {
    var components := GetTeamComponents(t, teamId);
    SelectionSums(t, teamId);
    InventorySummary(teamId, TotalQuantity(components), |components|)
  }

  /** Summing over the team's selection agrees with the reference sums over
      the whole table. */
  lemma {:induction false} SelectionSums(t: seq<TeamComponent>, teamId: string)
    ensures TotalQuantity(Tables.Select(t, OnTeam(teamId))) == TeamQuantity(t, teamId)
    ensures |Tables.Select(t, OnTeam(teamId))| == TeamRowCount(t, teamId)
  {
    if |t| > 0 {
      SelectionSums(t[1..], teamId);
      var rest := Tables.Select(t[1..], OnTeam(teamId));
      if t[0].teamId == teamId {
        assert Tables.Select(t, OnTeam(teamId)) == [t[0]] + rest;
        assert ([t[0]] + rest)[1..] == rest;
      } else {
        assert Tables.Select(t, OnTeam(teamId)) == rest;
      }
    }
  }

  /** Setting one row's quantity moves its team's total by exactly the
      difference, and leaves the row count and every other team alone. */
  lemma {:induction false} QuantityUpdateShiftsTotal(t: seq<TeamComponent>, k: int, newQuantity: int, teamId: string)
    requires Tables.UniqueKeys(t, IdOf)
    requires 0 <= k < |t|
    ensures var after := UpdateComponentQuantity(t, t[k].id, newQuantity).0;
      && TeamQuantity(after, teamId)
           == TeamQuantity(t, teamId) + (if t[k].teamId == teamId then newQuantity - t[k].quantity else 0)
      && TeamRowCount(after, teamId) == TeamRowCount(t, teamId)
  {
    var id := t[k].id;
    var after := UpdateComponentQuantity(t, id, newQuantity).0;
    assert after == Tables.UpdateWhere(t, HasId(id), SetQuantity(newQuantity));
    ShiftAt(t, after, k, teamId);
  }

  /** Induction for `QuantityUpdateShiftsTotal`: `after` is `t` with only
      row `k`'s quantity replaced. */
  lemma {:induction false} ShiftAt(t: seq<TeamComponent>, after: seq<TeamComponent>, k: int, teamId: string)
    requires |after| == |t| && 0 <= k < |t|
    requires forall i :: 0 <= i < |t| && i != k ==> after[i] == t[i]
    requires after[k] == t[k].(quantity := after[k].quantity)
    ensures TeamQuantity(after, teamId)
              == TeamQuantity(t, teamId) + (if t[k].teamId == teamId then after[k].quantity - t[k].quantity else 0)
    ensures TeamRowCount(after, teamId) == TeamRowCount(t, teamId)
  {
    if k == 0 {
      assert after[1..] == t[1..];
    } else {
      ShiftAt(t[1..], after[1..], k - 1, teamId);
    }
  }
}

=== FILE: text.dfy ===
/** Case-insensitive substring matching: the meaning of
    `column ILIKE '%needle%'` when the needle holds no wildcard characters.
    Case folding is ASCII-only, as in SQLite's `lower`. */
module Text {

  /** ASCII upper-case letters map to lower case; every other character is kept. */
  function LowerChar(c: char): (r: char)
    ensures 'A' <= c <= 'Z' ==> r as int == c as int + 32
    ensures !('A' <= c <= 'Z') ==> r == c
    ensures !('A' <= r <= 'Z')
  {
    if 'A' <= c <= 'Z' then (c as int + 32) as char else c
  }

  function Lower(s: string): (r: string)
    ensures |r| == |s|
    ensures forall i :: 0 <= i < |s| ==> r[i] == LowerChar(s[i])
  {
    seq(|s|, i requires 0 <= i < |s| => LowerChar(s[i]))
  }

  /** `needle` occurs in `hay` starting at position `i`. */
  predicate OccursAt(hay: string, needle: string, i: int)
  {
    0 <= i && i + |needle| <= |hay| && hay[i..i + |needle|] == needle
  }

  /** Substring search, by scanning the start positions left to right. */
  function Contains(hay: string, needle: string): (r: bool)
    ensures r <==> exists i :: OccursAt(hay, needle, i)
    decreases |hay|
  {
    if |needle| > |hay| then false
    else if hay[..|needle|] == needle then
      assert OccursAt(hay, needle, 0);
      true
    else
      OccurrenceShift(hay, needle);
      Contains(hay[1..], needle)
  }

  /** Once position 0 is ruled out, the occurrences in `hay` are those in
      `hay[1..]`, shifted by one. */
  lemma OccurrenceShift(hay: string, needle: string)
    requires |hay| > 0 && !OccursAt(hay, needle, 0)
    ensures (exists i :: OccursAt(hay, needle, i)) <==> (exists j :: OccursAt(hay[1..], needle, j))
  {
    if i :| OccursAt(hay, needle, i) {
      assert hay[1..][i - 1..i - 1 + |needle|] == hay[i..i + |needle|];
      assert OccursAt(hay[1..], needle, i - 1);
    }
    if j :| OccursAt(hay[1..], needle, j) {
      assert hay[1..][j..j + |needle|] == hay[j + 1..j + 1 + |needle|];
      assert OccursAt(hay, needle, j + 1);
    }
  }

  /** `hay ILIKE '%needle%'`: the lower-cased needle occurs in the
      lower-cased hay. */
  function ContainsIgnoringCase(hay: string, needle: string): (r: bool)
    ensures r <==> exists i :: OccursAt(Lower(hay), Lower(needle), i)
  {
    Contains(Lower(hay), Lower(needle))
  }

  /** Matching ignores the case of both sides: lower-casing either one does
      not change the answer. */
  lemma {:induction false} MatchingIgnoresCase(hay: string, needle: string)
    ensures ContainsIgnoringCase(Lower(hay), needle) == ContainsIgnoringCase(hay, needle)
    ensures ContainsIgnoringCase(hay, Lower(needle)) == ContainsIgnoringCase(hay, needle)
  {
    LowerIdempotent(hay);
    LowerIdempotent(needle);
  }

  lemma LowerIdempotent(s: string)
    ensures Lower(Lower(s)) == Lower(s)
  {
  }
}

=== FILE: wrappers.dfy ===
/** Failure-carrying datatypes shared by the other modules: Python's `None`,
    raised exceptions and "either a value or an error" returns are made
    explicit with these. */
module Wrappers {

  /** A value that may be absent (Python's `Optional[T]`, SQL's NULL). */
  datatype Option<+T> = None | Some(value: T)

  /** Either a computed value or the error that was raised instead. */
  datatype Result<+T, +E> = Success(value: T) | Failure(error: E)

  /** A check that either passes silently or raises an error. */
  datatype Outcome<+E> = Pass | Fail(error: E)

  /** A partial update of a required column: the given value if there is
      one, else the stored one. */
  function Override<T>(given: Option<T>, stored: T): T
  {
    if given.Some? then given.value else stored
  }

  /** A partial update of a nullable column: the given value if there is
      one, else the stored one, which may itself be absent. */
  function OrElse<T>(given: Option<T>, stored: Option<T>): Option<T>
  {
    if given.Some? then given else stored
  }
}
